=== FILE: README.md ===
# Streaming chat-completion client: response ingestion

A Dafny model of the response-handling core of `api-client-golang.go`, a
terminal assistant that posts a chat request to an OpenAI-style endpoint and
streams the answer back. The model covers these parts:

- **`handleHTTPResponse`**: the status classifier. It maps a status, the
  retry index and the retry budget to proceed (0), fatal (1) or retry (2),
  and saves one system message for every non-200 status.
- **The outer loop of `sendJSONToAPI`**: up to `MaxRetries` attempts.
  - A failed send sleeps `2^retryCount` seconds and tries again.
  - A retryable status tries again at once.
  - A fatal status returns its error.
  - A 200 response has its body streamed, and the call ends without an error.
- **The inner loop**: the line-framing state machine.
  - Each body line is trimmed, then classified as one of: blank or
    keep-alive, `CODE: `, `[DONE]`, `data: `, or other.
  - Payloads collect in a single `buffer`.
  - A line ending in `}` hands the buffer to the JSON decoder.
- **Delta handling**: each decoded frame does one of these:
  - a malformed frame is logged;
  - tool calls are saved as a tool message;
  - non-empty content is displayed and appended to `fullResponse`, after
    the `<cmd>…</cmd>` directive is cut out and pushed as a command;
  - an empty delta ends the turn, saving `fullResponse` as the assistant
    message.

Side effects form a trace of `Event`s, of these kinds:

- `Saved(role, content)` for conversation-log saves;
- `Logged` for error-log lines;
- `Displayed`;
- `Pushed` for commands handed to the shell;
- `Slept(seconds)`.

The network is a function `transport: nat -> Attempt`. It says what attempt
`k` runs into: a request that cannot be built, a failed send, or a status
with a body. The body is its sequence of newline-terminated lines plus how
reading ended: end of file or a read error. JSON decoding and tool-call
marshalling are the two functions of a `Json` value. The model does not look
inside them.

Modules (one per file):

- `Text` (text.dfy): the Go string primitives the loop uses.
  - `strings.TrimSpace`, with `unicode.IsSpace`'s white-space set;
  - `HasPrefix`, `HasSuffix`, `Index`, `Contains` and `Replace(…, 1)`;
  - `%d`.
- `Events` (events.dfy): roles, decoded frames, the `Json` collaborator and
  the event trace.
- `Classifier` (classifier.dfy): `handleHTTPResponse`.
- `Directives` (directive.dfy): `<cmd>` extraction and what is shown or
  pushed.
- `Framer` (framer.dfy): line classification, the per-line step, frame
  delivery, and the stream loop over a body.
- `Driver` (driver.dfy): one attempt, the retry loop, and `sendJSONToAPI`.

Four behaviours of the code that a reader might not expect, each stated by a
lemma:

- **Only a failed send sleeps.** A failed send pauses `2^retryCount` seconds
  (api-client-golang.go:227), even when it was the last attempt. A status
  with code 2 goes on to the next attempt at once (api-client-golang.go:236-239).
  Three failed sends in a budget of three sleep 1, 2 and 4 seconds and end
  without an error (`Driver.TransportFailuresBackOff`, `Driver.BackoffExample`).
- **A run of transient statuses ends with an error.** On the last attempt the
  budget allows, 429 and 500/502/503/504 are fatal
  (api-client-golang.go:176 and 182-184, 188 and 194-196), and the call returns
  that error (api-client-golang.go:233-235). Only failed sends let the loop
  run out without an error (`Driver.TransientExhausts`).
- **Reversed or adjacent markers show nothing.** When both markers occur but
  the first `</cmd>` does not start after the first `<cmd>` ends, the guard at
  api-client-golang.go:311 fails. Nothing is displayed or pushed, yet the
  content is still appended to `fullResponse` (api-client-golang.go:327;
  `Directives.ReversedMarkersSuppressed`).
- **Split frames are not joined.** Only `data: ` lines add to the buffer
  (api-client-golang.go:272-278). A closing line without that prefix hands the
  decoder the previous payload alone (api-client-golang.go:280-282;
  `Framer.SplitFrameNotJoined`).

## Model

| member | source | states |
|---|---|---|
| Text.TrimSpace | api-client-golang.go:253 | the trimmed line has no white space at either end, is no longer than the line, and is empty exactly when the line is all white space |
| Text.TrimSpaceAbsorbs | api-client-golang.go:253 | white space added around a line does not change its trimmed form |
| Text.TrimSpaceIdempotent | api-client-golang.go:253 | trimming an already trimmed line changes nothing |
| Text.IndexOf | api-client-golang.go:309-310 | the result is -1 or a position where the pattern occurs, and the pattern occurs nowhere before it (nowhere at all when -1) |
| Text.ReplaceFirst | api-client-golang.go:313 | with no occurrence the text is unchanged; otherwise exactly the first occurrence is replaced and both sides of it are kept |
| Text.NatToDecimal | api-client-golang.go:171 | the decimal form of a natural number is a non-empty string of digits with no leading zero; 0 is written "0" |
| Text.IntToDecimal | api-client-golang.go:171 | the decimal form is non-empty and starts with a minus sign exactly for negative numbers |
| Text.NatToDecimalValue | api-client-golang.go:171 | the digits written for a natural number read back as that number |
| Text.IntToDecimalValue | api-client-golang.go:171 | after the optional minus sign, the decimal form consists of digits that read back as the number's magnitude |
| Classifier.Classify | api-client-golang.go:164-204 | proceed exactly for 200, which has no side effects; retry exactly for 429/500/502/503/504 while retryCount < maxRetries-1; fatal otherwise, always for 401 and 145; every non-200 status saves exactly one system message first and does nothing else except that a retry then logs its error |
| Classifier.Verdict.Code | api-client-golang.go:164-204 | the integer the classifier returns: 0 to proceed, 1 for a fatal status, 2 to retry |
| Classifier.TransientSchedule | api-client-golang.go:175-197 | a transient status is retried on every attempt but the last one the budget allows, saving and then logging its retry message ("Rate limit exceeded, retrying..." for 429, "Server error (<status>), retrying..." otherwise); on that last one it is fatal with the "after N retries" error and saves only the shorter note |
| Classifier.FatalMessages | api-client-golang.go:170-202 | 401 and 145 fail with "Error (<status>): Invalid API key" and save that same text; any other unexpected status fails with "Unexpected response (HTTP <status>): <body>" and saves the note without the body; nothing else happens |
| Classifier.NonTransientNeverRetried | api-client-golang.go:164-204 | any status other than 200 and the transient ones is fatal, with the same verdict and side effects whatever the retry index |
| Directives.Extract | api-client-golang.go:307-325 | content lacking either marker is shown whole; it splits exactly when the first `</cmd>` starts strictly after the first `<cmd>` ends; the command is the non-empty text strictly between them, the visible text is prefix + suffix, and re-inserting markers and command into it rebuilds the content |
| Directives.CutSpan | api-client-golang.go:309-313 | removing the span from the first `<cmd>` through the first `</cmd>` once leaves exactly the text before and after it |
| Directives.FirstOccurrenceOfExtension | api-client-golang.go:313 | the span that starts at the first `<cmd>` is itself first found there, so the one-shot replace removes that span and no earlier copy |
| Directives.Show | api-client-golang.go:315-325 | plain content is displayed whole; suppressed content produces nothing; a split displays its visible text exactly when that is non-empty, once and before the push, and pushes exactly its non-empty command, and nothing else; nothing is saved and nothing sleeps |
| Directives.ExtractComposed | api-client-golang.go:307-322 | the converse of extraction: pre + `<cmd>` + cmd + `</cmd>` + post, with no marker in pre and no closing marker in the non-empty cmd, splits into pre + post and cmd |
| Directives.ShowComposed | api-client-golang.go:307-321 | content built as pre + `<cmd>` + cmd + `</cmd>` + post (no marker in pre, no closing marker in the non-empty cmd) displays pre + post when that is non-empty, then pushes cmd |
| Directives.ExtractExample | api-client-golang.go:307-322 | "before<cmd>ls -la</cmd>after" displays "beforeafter" and pushes "ls -la" |
| Directives.ReversedMarkersSuppressed | api-client-golang.go:307-311 | "</cmd>no open<cmd>" is suppressed: neither displayed nor pushed |
| Framer.Recognize | api-client-golang.go:254-280 | a trimmed line is ignored exactly when blank or the keep-alive comment, control exactly with the `CODE: ` prefix, done exactly when `[DONE]`, data exactly with the `data: ` prefix (payload = the rest), and closes a frame exactly when it ends in `}` |
| Framer.ClassifyIgnoresSurroundingSpace | api-client-golang.go:253 | white space around a raw line never changes how it is handled |
| Framer.ClassifyDataLine | api-client-golang.go:272-280 | `data: ` plus a payload not ending in white space is a data line carrying exactly that payload, closing a frame exactly when the payload ends in `}` |
| Framer.ClassifyDoneLine | api-client-golang.go:264 | `[DONE]` is the end marker |
| Framer.ClassifyBareClosingLine | api-client-golang.go:272-280 | a trimmed line ending in `}` without the `data: ` or `CODE: ` prefix closes a frame without adding to the buffer |
| Framer.Deliver | api-client-golang.go:280-336 | after any decoded frame the buffer is empty; `fullResponse` grows by exactly the raw content of a content delta and by nothing otherwise; malformed JSON saves one system error and logs the frame; tool calls are saved once as a tool message; an empty delta displays "" and saves the accumulated response as the one assistant message; a frame with no choices has no side effects |
| Framer.Step | api-client-golang.go:253-336 | only a control line ends the call; ignored and control lines change nothing; `[DONE]` and a data line discard a non-empty buffer with one log line; after a non-closing data line the buffer is exactly its payload; no other line adds to the buffer; after a closing line the buffer is empty and `fullResponse` has grown by the decoded frame's content; a closing data line has the discard log, if any, followed by the effects of delivering its own payload, and any other closing line has exactly the effects of delivering the buffer |
| Framer.Stream | api-client-golang.go:244-337 | reading more lines only ever extends `fullResponse` |
| Framer.ReadBody | api-client-golang.go:243-251 | the body's lines are streamed in order; a read error that is not end of file adds exactly one log line after the stream's events, except after a control line; end of file adds nothing |
| Framer.HaltsIffControlLine | api-client-golang.go:258-262 | the call stops early exactly when some line is a `CODE: ` line |
| Framer.BufferIsLastPayload | api-client-golang.go:272-278 | once a body is read the buffer is empty or holds exactly the payload of the last data line, never two payloads run together |
| Framer.SavedResponsesArePrefixes | api-client-golang.go:327-331 | every saved assistant message extends the response the stream started from and is a prefix of the final response |
| Framer.DoneDoesNotStop | api-client-golang.go:264-270 | `[DONE]` empties the buffer and reading continues with the next line |
| Framer.EndToEndExample | api-client-golang.go:272-336 | a "Hi" delta, an empty delta and `[DONE]` display "Hi" and then "", save "Hi" as the assistant message once, and leave `fullResponse` = "Hi" |
| Framer.SplitFrameNotJoined | api-client-golang.go:272-287 | a non-closing data line followed by a bare closing line decodes the first payload alone |
| Framer.StaleFrameDiscarded | api-client-golang.go:272-278 | two non-closing data lines in a row log the first payload once and leave only the second in the buffer |
| Driver.Pow2 | api-client-golang.go:227 | the back-off is at least one second |
| Driver.Attempted | api-client-golang.go:212-240 | an attempt leads to another exactly when the send failed or a transient status came back with budget left; a failed send only logs its error and then sleeps 2^k; a fatal status ends the call with the classifier's error and session untouched; 200 streams the body; a request that cannot be built sends nothing, only logs its error and ends the call with it |
| Driver.AttemptFollowsCode | api-client-golang.go:232-240 | after a response the attempt goes by the classifier's code: another attempt exactly for 2, an error exactly for 1, streaming and success exactly for 0 |
| Driver.Drive | api-client-golang.go:211-241 | at most as many requests as attempts remain; a failed call or one that sent nothing leaves buffer and response untouched; no attempts left means no error and no effects |
| Driver.DriveRetried | api-client-golang.go:225-239 | a retried attempt adds its effects and one request in front of the next attempt's, and changes nothing else |
| Driver.SendJSONToAPI | api-client-golang.go:206-211 | at most `MaxRetries` requests; a budget of zero or less makes no request and returns no error |
| Driver.SkipRetried | api-client-golang.go:207-239 | retried attempts leave buffer and response as they were, and the call ends as the first attempt that is not retried decides |
| Driver.FirstSuccessStreams | api-client-golang.go:242-343 | when the first decisive attempt gets 200 the call succeeds after d+1 requests, with exactly the state and the trailing effects of streaming that body from an empty buffer and response |
| Driver.FirstFatalStops | api-client-golang.go:232-235 | when the first decisive attempt gets a fatal status the call returns that error after d+1 requests, with the session untouched and the classifier's side effects as the last ones, so no body is read |
| Driver.BadRequestStops | api-client-golang.go:214-218 | a request that cannot be built ends the call with that error, without sending it |
| Driver.TransientExhausts | api-client-golang.go:232-239 | when every attempt gets a transient status, every attempt sends a request and saves one system message, nothing sleeps, and the call fails with the last status's exhaustion error |
| Driver.Backoff | api-client-golang.go:227 | one pause per remaining attempt, the i-th being 2^(k+i) |
| Driver.TransportFailuresBackOff | api-client-golang.go:225-229 | when every send fails the call ends with no error, no save and no pushed command, after one request per attempt, having slept 2^k, 2^(k+1), … |
| Driver.BackoffExample | api-client-golang.go:225-229 | three failed sends in a budget of three sleep 1, 2 and 4 seconds and return no error |

## Left out

- HTTP request building, `client.Do` and the `Content-Type`/`Authorization` headers are not modelled: they are I/O. Each attempt's result is a parameter.
- Reading the body with `bufio` is not modelled. The body is its complete lines plus how reading ended. A final line without a newline arrives together with `io.EOF`, and the loop drops it; such a line is not represented.
- `json.Unmarshal` and `json.Marshal` are not modelled: they are a foreign library. They are the `decode`/`encode` functions of `Json`. In particular, whether an empty buffer decodes is left to `decode` (Go reports an error for it).
- `time.Sleep` and the float64 `math.Pow` are not modelled. The trace records the exact integer 2^k. A `time.Duration` overflow is not modelled either: it would need 2^k seconds past the int64 nanosecond range, at k ≥ 34.
- `toggleSpinner` (api-client-golang.go:138-143, called at 212, 259 and 290) sets a spinner flag that the modelled code never reads, and prints `"\r"` when switching it off. `displaySpinner` is never called. `debugLog` (api-client-golang.go:81-86) writes to stderr only when `DEBUG=true`. All three are omitted. `displayInBox`, `pushToStdin`, `saveMessage` and `errorLog` appear only as events. The conversation id is not recorded in them.
- The response body's `Close` is not modelled: connection release is resource handling, not logic. So are context cancellation and concurrency.
- Three functions are not part of this model: `loadConfig`, `createNewConversation` and `sendMessage`, the last because it builds the request JSON by string templating. `main` is not part of it either.
- The ordering of `<cmd>` markers uses the positions of the first occurrences, as the code does. Later occurrences of either marker are not examined.
- Framer.Stream: its own contract states only that `fullResponse` never shrinks. What each line does is stated by `Framer.Step`, and what a whole stream does by the `Framer` lemmas (halting, buffer contents, saved snapshots).
- Strings are sequences of Unicode scalar values. Invalid UTF-8 in a response is not represented. The markers and prefixes are ASCII, so on valid UTF-8 their byte offsets in Go correspond one-to-one with character offsets here.

=== FILE: classifier.dfy ===
/** `handleHTTPResponse`: maps an HTTP status, the current retry index and
    the retry budget to an outcome, saving a system message on every
    non-200 status. */
module Classifier {
  import opened Text
  import opened Events

  /** The outcome of one status check. `handleHTTPResponse` returns it as
      an integer code (see `Code`) paired with an error value. */
  datatype Verdict = Proceed | Fatal(err: string) | Retry(err: string) {
    /** The integer code `handleHTTPResponse` returns: 0 = proceed, 1 = fatal, 2 = retry. */
    function Code(): (c: int)
      ensures 0 <= c <= 2
      ensures c == 0 <==> Proceed?
      ensures c == 2 <==> Retry?
    {
      match this
      case Proceed => 0
      case Fatal(_) => 1
      case Retry(_) => 2
    }
  }

  datatype Classification = Classification(verdict: Verdict, events: seq<Event>)

  /** Statuses the provider uses to reject the API key. */
  predicate IsAuthRejection(status: int) {
    status == 401 || status == 145
  }

  /** Rate limiting and the gateway/server failures: retried while budget remains. */
  predicate IsTransient(status: int) {
    status == 429 || status == 500 || status == 502 || status == 503 || status == 504
  }

  /** Whether another attempt is allowed after attempt `retryCount`. */
  predicate BudgetLeft(retryCount: int, maxRetries: int) {
    retryCount < maxRetries - 1
  }

  function Classify(status: int, body: string, retryCount: int, maxRetries: int): (r: Classification)
    ensures r.verdict.Proceed? <==> status == 200
    ensures r.verdict.Retry? <==> IsTransient(status) && BudgetLeft(retryCount, maxRetries)
    ensures r.verdict.Fatal? <==>
      status != 200 && !(IsTransient(status) && BudgetLeft(retryCount, maxRetries))
    ensures status == 200 ==> r.events == []
    ensures status != 200 ==> SaveCount(r.events) == 1 && |SavedAs(r.events, System)| == 1
    ensures status != 200 ==>
      && |r.events| == (if r.verdict.Retry? then 2 else 1)
      && r.events[0].Saved? && r.events[0].role == System
    ensures r.verdict.Retry? ==> r.events[|r.events| - 1] == Logged(r.verdict.err)
    ensures IsAuthRejection(status) ==> r.verdict.Fatal?
  {
    var code := IntToDecimal(status);
    if status == 200 then
      Classification(Proceed, [])
    else if IsAuthRejection(status) then
      var message := "Error (" + code + "): Invalid API key";
      Classification(Fatal(message), [Saved(System, message)])
    else if status == 429 then
      if BudgetLeft(retryCount, maxRetries) then
        var message := "Rate limit exceeded, retrying...";
        Classification(Retry(message), [Saved(System, message), Logged(message)])
      else
        var message := "Rate limit exceeded after " + IntToDecimal(maxRetries) + " retries";
        Classification(Fatal(message), [Saved(System, "Error: Rate limit exceeded")])
    else if IsTransient(status) then
      if BudgetLeft(retryCount, maxRetries) then
        var message := "Server error (" + code + "), retrying...";
        Classification(Retry(message), [Saved(System, message), Logged(message)])
      else
        var message := "Server error after " + IntToDecimal(maxRetries) + " retries";
        Classification(Fatal(message), [Saved(System, "Error: Server error after multiple retries")])
    else
      var message := "Unexpected response (HTTP " + code + "): " + body;
      Classification(Fatal(message), [Saved(System, "Error: Unexpected response (HTTP " + code + ")")])
  }

  /** The error returned once the budget is spent on a transient status. */
  function ExhaustedError(status: int, maxRetries: int): string
    requires IsTransient(status)
  {
    if status == 429 then "Rate limit exceeded after " + IntToDecimal(maxRetries) + " retries"
    else "Server error after " + IntToDecimal(maxRetries) + " retries"
  }

  /** The message saved and logged when a transient status is retried. */
  function RetryMessage(status: int): string
    requires IsTransient(status)
  {
    if status == 429 then "Rate limit exceeded, retrying..."
    else "Server error (" + IntToDecimal(status) + "), retrying..."
  }

  /** The system message saved when the budget is spent on a transient
      status; unlike the returned error it does not name the budget. */
  function ExhaustedNote(status: int): string
    requires IsTransient(status)
  {
    if status == 429 then "Error: Rate limit exceeded"
    else "Error: Server error after multiple retries"
  }

  /** A transient status is retried on every attempt but the last one the
      budget allows, saving and logging the retry message; on that last
      attempt it is fatal with the exhaustion error that names the budget,
      and only a shorter note is saved. */
  lemma TransientSchedule(status: int, retryCount: int, maxRetries: int)
    requires IsTransient(status)
    ensures retryCount < maxRetries - 1 ==>
      var c := Classify(status, "", retryCount, maxRetries);
      && c.verdict.Retry? && c.events == [Saved(System, c.verdict.err), Logged(c.verdict.err)]
      && c.verdict.err == RetryMessage(status)
    ensures retryCount >= maxRetries - 1 ==>
      Classify(status, "", retryCount, maxRetries) ==
        Classification(Fatal(ExhaustedError(status, maxRetries)), [Saved(System, ExhaustedNote(status))])
  {
  }

  /** The error texts of the statuses that are fatal at once: a rejected key
      saves the error itself; any other unexpected status returns an error
      quoting the body but saves a note without it. */
  lemma FatalMessages(status: int, body: string, retryCount: int, maxRetries: int)
    ensures IsAuthRejection(status) ==>
      var m := "Error (" + IntToDecimal(status) + "): Invalid API key";
      Classify(status, body, retryCount, maxRetries) == Classification(Fatal(m), [Saved(System, m)])
    ensures status != 200 && !IsAuthRejection(status) && !IsTransient(status) ==>
      var code := IntToDecimal(status);
      Classify(status, body, retryCount, maxRetries) ==
        Classification(Fatal("Unexpected response (HTTP " + code + "): " + body),
          [Saved(System, "Error: Unexpected response (HTTP " + code + ")")])
  {
  }

  /** A status that is neither 200 nor transient is fatal whatever the retry
      index, so it is never retried. */
  lemma NonTransientNeverRetried(status: int, body: string, i: int, j: int, maxRetries: int)
    requires status != 200 && !IsTransient(status)
    ensures Classify(status, body, i, maxRetries) == Classify(status, body, j, maxRetries)
    ensures Classify(status, body, i, maxRetries).verdict.Fatal?
  {
  }
}

=== FILE: directive.dfy ===
/** The `<cmd>` directive extraction applied to every non-empty content
    delta: the text between the first `<cmd>` and the first `</cmd>` is a
    command for the shell, and the rest of the content is shown. */
module Directives {
  import opened Text
  import opened Events

  const Open: string := "<cmd>"
  const Close: string := "</cmd>"

  /** What a content delta turns into.
      - `Plain`: the content lacks one of the markers and is shown whole.
      - `Split`: the markers are in order with something between them.
      - `Suppressed`: both markers are present but the first `</cmd>` does
        not start strictly after the first `<cmd>` ends; nothing is shown. */
  datatype Directive = Plain(text: string) | Split(visible: string, command: string) | Suppressed

  /** Both markers occur, and the first closing one starts strictly after
      the first opening one ends. */
  predicate WellOrdered(content: string) {
    && Contains(content, Open) && Contains(content, Close)
    && IndexOf(content, Close) > IndexOf(content, Open) + |Open|
  }

  function Extract(content: string): (d: Directive)
    ensures d.Plain? <==> !(Contains(content, Open) && Contains(content, Close))
    ensures d.Plain? ==> d.text == content
    ensures d.Split? <==> WellOrdered(content)
    ensures d.Split? ==>
      var i := IndexOf(content, Open);
      var j := IndexOf(content, Close);
      && d.command != ""
      && d.command == content[i + |Open|..j]
      && d.visible == content[..i] + content[j + |Close|..]
      && content == d.visible[..i] + Open + d.command + Close + d.visible[i..]
  {
    if Contains(content, Open) && Contains(content, Close) then
      var start := IndexOf(content, Open) + 5;
      var end := IndexOf(content, Close);
      if start > 4 && end > start then
        var rest := ReplaceFirst(content, content[start - 5..end + 6], "");
        CutSpan(content, start - 5, end);
        Split(rest, content[start..end])
      else
        Suppressed
    else
      Plain(content)
  }

  /** Removing the span from the first `<cmd>` to the end of the first
      `</cmd>` leaves the text on either side of it, and putting the markers
      and the command back around the cut rebuilds the content. */
  lemma CutSpan(content: string, i: int, j: int)
    requires i == IndexOf(content, Open) && 0 <= i && i + |Open| < j
    requires j == IndexOf(content, Close) && OccursAt(content, Close, j)
    ensures var v := ReplaceFirst(content, content[i..j + |Close|], "");
      && v == content[..i] + content[j + |Close|..]
      && v[..i] == content[..i] && v[i..] == content[j + |Close|..]
      && content == v[..i] + Open + content[i + |Open|..j] + Close + v[i..]
  {
    var span := content[i..j + |Close|];
    assert span[..|Open|] == Open;
    FirstOccurrenceOfExtension(content, Open, span, i);
    var v := content[..i] + content[j + |Close|..];
    assert v[..i] == content[..i] && v[i..] == content[j + |Close|..];
    assert content == content[..i] + Open + content[i + |Open|..j] + Close + content[j + |Close|..];
  }

  /** A string that begins with the first occurrence of `pat` is itself
      first found there. `sendJSONToAPI` removes the marked span with a
      first-occurrence replace; this is why that removes the span it cut. */
  lemma FirstOccurrenceOfExtension(s: string, pat: string, ext: string, i: int)
    requires i == IndexOf(s, pat) && OccursAt(s, ext, i)
    requires |pat| <= |ext| && ext[..|pat|] == pat
    ensures IndexOf(s, ext) == i
  {
    forall k | 0 <= k < i ensures !OccursAt(s, ext, k) {
      if k + |ext| <= |s| {
        assert !OccursAt(s, pat, k);
        assert s[k..k + |ext|][..|pat|] == s[k..k + |pat|];
      }
    }
  }

  /** The events `sendJSONToAPI` performs for one non-empty content delta. */
  function Show(d: Directive): (r: seq<Event>)
    ensures d.Plain? ==> r == [Displayed(d.text)]
    ensures d.Suppressed? ==> r == []
    ensures d.Split? ==> Pushes(r) == (if d.command == "" then [] else [d.command])
    ensures d.Split? ==> forall e :: e in r ==> e == Displayed(d.visible) || e == Pushed(d.command)
    ensures d.Split? ==> (Displayed(d.visible) in r <==> d.visible != "")
    ensures d.Split? ==>
      && |r| == (if d.visible != "" then 1 else 0) + |Pushes(r)|
      && (d.visible != "" ==> r[0] == Displayed(d.visible))
    ensures SaveCount(r) == 0 && Sleeps(r) == []
  {
    match d
    case Plain(text) => [Displayed(text)]
    case Suppressed => []
    case Split(visible, command) =>
      (if visible != "" then [Displayed(visible)] else [])
      + (if command != "" then [Pushed(command)] else [])
  }

  /** No occurrence of `Open` starts in `pre` when `pre` has none of its
      own and `Open` follows it. */
  lemma OpenNotBefore(pre: string, rest: string)
    requires !Contains(pre, Open) && HasPrefix(rest, Open)
    ensures forall k :: 0 <= k < |pre| ==> !OccursAt(pre + rest, Open, k)
  {
    var s := pre + rest;
    forall k | 0 <= k < |pre| ensures !OccursAt(s, Open, k) {
      if k + |Open| > |s| {
      } else if k + |Open| <= |pre| {
        assert s[k..k + |Open|] == pre[k..k + |Open|];
        assert !OccursAt(pre, Open, k);
      } else {
        assert s[k..k + |Open|][|pre| - k] == s[|pre|] == rest[0] == '<';
      }
    }
  }

  /** No occurrence of `Close` starts before `Close` itself in
      pre + Open + cmd + Close + post, when neither `pre` nor `cmd` holds one. */
  lemma CloseNotBefore(pre: string, cmd: string, rest: string)
    requires !Contains(pre, Close) && !Contains(cmd, Close) && HasPrefix(rest, Close)
    ensures forall k :: 0 <= k < |pre| + |Open| + |cmd| ==> !OccursAt(pre + Open + cmd + rest, Close, k)
  {
    var s := pre + Open + cmd + rest;
    var c := |pre| + |Open|;
    assert s[..|pre|] == pre;
    assert s[|pre|..c] == Open;
    assert s[c..c + |cmd|] == cmd;
    assert s[c + |cmd|] == '<';
    forall k | 0 <= k < c + |cmd| ensures !OccursAt(s, Close, k) {
      if k + |Close| > |s| {
      } else if k + |Close| <= |pre| {
        assert s[k..k + |Close|] == s[..|pre|][k..k + |Close|];
        assert !OccursAt(pre, Close, k);
      } else if k < |pre| {
        assert s[k..k + |Close|][|pre| - k] == s[|pre|] == '<';
      } else if k == |pre| {
        assert s[k..k + |Close|][1] == s[|pre| + 1] == 'c';
      } else if k < c {
        assert s[k..k + |Close|][0] == s[k] == Open[k - |pre|];
      } else if k + |Close| <= c + |cmd| {
        assert s[k..k + |Close|] == s[c..c + |cmd|][k - c..k - c + |Close|];
        assert !OccursAt(cmd, Close, k - c);
      } else {
        assert s[k..k + |Close|][c + |cmd| - k] == s[c + |cmd|] == '<';
      }
    }
  }

  /** The converse of `Extract`'s contract: text built as
      pre + `<cmd>` + cmd + `</cmd>` + post, where `pre` holds neither marker
      and the non-empty `cmd` holds no closing marker, splits back into
      pre + post and cmd. */
  lemma {:induction false} ExtractComposed(pre: string, cmd: string, post: string)
    requires !Contains(pre, Open) && !Contains(pre, Close)
    requires !Contains(cmd, Close) && cmd != ""
    ensures Extract(pre + Open + cmd + Close + post) == Split(pre + post, cmd)
  {
    var s := pre + Open + cmd + Close + post;
    assert s == pre + (Open + cmd + Close + post);
    OpenNotBefore(pre, Open + cmd + Close + post);
    assert OccursAt(s, Open, |pre|);
    assert IndexOf(s, Open) == |pre|;
    assert s == pre + Open + cmd + (Close + post);
    CloseNotBefore(pre, cmd, Close + post);
    var j := |pre| + |Open| + |cmd|;
    assert OccursAt(s, Close, j);
    assert IndexOf(s, Close) == j;
    assert s[|pre| + |Open|..j] == cmd;
    assert s[..|pre|] == pre;
    assert s[j + |Close|..] == post;
  }

  /** Every occurrence of a non-empty pattern starts with its first character. */
  lemma OccurrenceHeads(s: string, pat: string)
    requires pat != []
    ensures forall k :: OccursAt(s, pat, k) ==> s[k] == pat[0]
  {
    forall k | OccursAt(s, pat, k) ensures s[k] == pat[0] {
      assert s[k..k + |pat|][0] == s[k];
    }
  }

  /** Text without a '<' holds neither marker. */
  lemma NoMarkerWithoutBracket(s: string)
    requires forall i :: 0 <= i < |s| ==> s[i] != '<'
    ensures !Contains(s, Open) && !Contains(s, Close)
  {
    OccurrenceHeads(s, Open);
    OccurrenceHeads(s, Close);
  }

  /** What a delta built around one directive does: the prose around it is
      shown once (if there is any), and then the command is pushed. */
  lemma ShowComposed(pre: string, cmd: string, post: string)
    requires !Contains(pre, Open) && !Contains(pre, Close)
    requires !Contains(cmd, Close) && cmd != ""
    ensures Show(Extract(pre + Open + cmd + Close + post)) ==
      (if pre + post != "" then [Displayed(pre + post)] else []) + [Pushed(cmd)]
  {
    ExtractComposed(pre, cmd, post);
  }

  /** Worked example, "before<cmd>ls -la</cmd>after": the directive is cut
      out and pushed, and the prose around it is joined and shown. */
  lemma ExtractExample(pre: string, cmd: string, post: string)
    requires pre == "before" && cmd == "ls -la" && post == "after"
    ensures Extract(pre + Open + cmd + Close + post) == Split(pre + post, cmd)
    ensures Show(Extract(pre + Open + cmd + Close + post)) == [Displayed(pre + post), Pushed(cmd)]
  {
    NoMarkerWithoutBracket(pre);
    NoMarkerWithoutBracket(cmd);
    ExtractComposed(pre, cmd, post);
  }

  /** Reversed markers: the content is neither shown nor pushed. */
  lemma ReversedMarkersSuppressed()
    ensures Extract("</cmd>no open<cmd>") == Suppressed
  {
    var s := "</cmd>no open<cmd>";
    assert OccursAt(s, Close, 0);
    assert OccursAt(s, Open, 13);
    assert IndexOf(s, Close) == 0;
  }
}

=== FILE: driver.dfy ===
/** The retry loop of `sendJSONToAPI`: up to `maxRetries` attempts, each
    building a request, sending it, checking the status and, on 200,
    streaming the body. The network is a parameter: `transport(k)` is what
    attempt `k` (counting from 0) runs into. */
module Driver {
  import opened Text
  import opened Events
  import opened Classifier
  import opened Framer

  /** What one attempt runs into. */
  datatype Attempt =
    | BadRequest(reason: string)               // the request could not be built
    | TransportFailed(reason: string)          // sending it failed
    | Responded(status: int, body: Body)       // a response arrived

  /** The error the call returns, if any. */
  datatype Outcome = Ok | Failed(err: string)

  /** A whole call: its outcome, the stream state it leaves, the side
      effects in order, and how many requests were sent. */
  datatype Run = Run(outcome: Outcome, session: Session, events: seq<Event>, requests: nat)

  /** The back-off before the attempt after a failed send: 2^k seconds. */
  function Pow2(n: nat): (p: nat)
    ensures p >= 1
  {
    if n == 0 then 1 else 2 * Pow2(n - 1)
  }

  /** How many attempts remain from attempt `k` on. */
  function Remaining(maxRetries: int, k: nat): nat {
    if maxRetries > k then maxRetries - k else 0
  }

  /** Whether attempt `k` is followed by another one: the send failed, or a
      transient status came back with budget left. */
  predicate Retried(a: Attempt, k: nat, maxRetries: int) {
    || a.TransportFailed?
    || (a.Responded? && IsTransient(a.status) && BudgetLeft(k, maxRetries))
  }

  /** `b` is what `a` ends with. */
  predicate EndsWith(a: seq<Event>, b: seq<Event>) {
    |b| <= |a| && a[|a| - |b|..] == b
  }

  lemma EndsWithAppend(p: seq<Event>, b: seq<Event>)
    ensures EndsWith(p + b, b)
  {
    assert (p + b)[|p|..] == b;
  }

  lemma EndsWithTransitive(a: seq<Event>, b: seq<Event>, c: seq<Event>)
    requires EndsWith(a, b) && EndsWith(b, c)
    ensures EndsWith(a, c)
  {
    assert a[|a| - |c|..] == a[|a| - |b|..][|b| - |c|..];
  }

  /** How one attempt ends: with another attempt after these side effects,
      or with the call's result. */
  datatype Turn = Again(events: seq<Event>) | Finish(run: Run)

  /** Attempt `k`, which runs into `a`. */
  function Attempted(json: Json, a: Attempt, k: nat, maxRetries: int, st: Session): (t: Turn)
    ensures t.Again? <==> Retried(a, k, maxRetries)
    ensures t.Finish? ==> t.run.requests == (if a.BadRequest? then 0 else 1)
    ensures t.Finish? && (t.run.outcome.Failed? || t.run.requests == 0) ==> t.run.session == st
    ensures a.TransportFailed? ==> Sleeps(t.events) == [Pow2(k)] && SaveCount(t.events) == 0
    ensures a.TransportFailed? ==> t == Again([Logged("Error sending request: " + a.reason), Slept(Pow2(k))])
    ensures a.BadRequest? ==> t == Finish(Run(Failed(a.reason), st, [Logged("Error creating request: " + a.reason)], 0))
    ensures a.Responded? ==>
      var c := Classify(a.status, "", k, maxRetries);
      && (c.verdict.Fatal? ==> t == Finish(Run(Failed(c.verdict.err), st, c.events, 1)))
      && (c.verdict.Retry? ==> t == Again(c.events))
      && (c.verdict.Proceed? ==>
            var b := ReadBody(json, st, a.body);
            t == Finish(Run(Ok, b.session, b.events, 1)))
  {
    match a
    case BadRequest(e) =>
      Finish(Run(Failed(e), st, [Logged("Error creating request: " + e)], 0))
    case TransportFailed(e) =>
      // The pause happens even after the last attempt.
      var evs := [Logged("Error sending request: " + e), Slept(Pow2(k))];
      assert evs[1..][1..] == [];
      Again(evs)
    case Responded(status, body) =>
      // The body is not read before the status check.
      var c := Classify(status, "", k, maxRetries);
      match c.verdict
      case Fatal(err) => Finish(Run(Failed(err), st, c.events, 1))
      case Retry(_) => Again(c.events)
      case Proceed =>
        var b := ReadBody(json, st, body);
        Finish(Run(Ok, b.session, b.events, 1))
  }

  /** After a response, the loop goes by the classifier's integer code:
      2 leads to another attempt, 1 ends the call with an error, and 0
      streams the body and ends it without one. */
  lemma AttemptFollowsCode(json: Json, status: int, body: Body, k: nat, maxRetries: int, st: Session)
    ensures var t := Attempted(json, Responded(status, body), k, maxRetries, st);
      var code := Classify(status, "", k, maxRetries).verdict.Code();
      && (t.Again? <==> code == 2)
      && (t.Finish? && t.run.outcome.Failed? <==> code == 1)
      && (t.Finish? && t.run.outcome.Ok? <==> code == 0)
  {
  }

  /** The loop from attempt `k` on, with stream state `st`. */
  function Drive(json: Json, transport: nat -> Attempt, maxRetries: int, k: nat, st: Session): (r: Run)
    ensures r.requests <= Remaining(maxRetries, k)
    ensures r.outcome.Failed? || r.requests == 0 ==> r.session == st
    ensures k >= maxRetries ==> r == Run(Ok, st, [], 0)
    ensures k < maxRetries && !Retried(transport(k), k, maxRetries) ==>
      r == Attempted(json, transport(k), k, maxRetries, st).run
    decreases Remaining(maxRetries, k)
  {
    if k >= maxRetries then
      Run(Ok, st, [], 0)
    else
      match Attempted(json, transport(k), k, maxRetries, st)
      case Finish(r) => r
      case Again(evs) =>
        var rest := Drive(json, transport, maxRetries, k + 1, st);
        Run(rest.outcome, rest.session, evs + rest.events, rest.requests + 1)
  }

  /** A retried attempt adds its side effects and one request in front of
      what the next attempt leads to, and changes nothing else. */
  lemma DriveRetried(json: Json, transport: nat -> Attempt, maxRetries: int, k: nat, st: Session)
    requires k < maxRetries && Retried(transport(k), k, maxRetries)
    ensures var r := Drive(json, transport, maxRetries, k, st);
      var rest := Drive(json, transport, maxRetries, k + 1, st);
      && r.outcome == rest.outcome && r.session == rest.session && r.requests == rest.requests + 1
      && r.events == Attempted(json, transport(k), k, maxRetries, st).events + rest.events
  {
  }

  /** Run `a` ends as `b` does, after `n` more requests and some side
      effects in front of `b`'s. */
  predicate Continues(a: Run, b: Run, n: nat) {
    && a.outcome == b.outcome && a.session == b.session && a.requests == n + b.requests
    && EndsWith(a.events, b.events)
  }

  lemma ContinuesRefl(a: Run)
    ensures Continues(a, a, 0)
  {
    assert a.events[|a.events| - |a.events|..] == a.events;
  }

  lemma ContinuesTrans(a: Run, b: Run, c: Run, m: nat, n: nat)
    requires Continues(a, b, m) && Continues(b, c, n)
    ensures Continues(a, c, m + n)
  {
    EndsWithTransitive(a.events, b.events, c.events);
  }

  lemma ContinuesRetried(json: Json, transport: nat -> Attempt, maxRetries: int, k: nat, st: Session)
    requires k < maxRetries && Retried(transport(k), k, maxRetries)
    ensures Continues(Drive(json, transport, maxRetries, k, st), Drive(json, transport, maxRetries, k + 1, st), 1)
  {
    DriveRetried(json, transport, maxRetries, k, st);
    EndsWithAppend(Attempted(json, transport(k), k, maxRetries, st).events,
      Drive(json, transport, maxRetries, k + 1, st).events);
  }

  /** The whole call: attempt 0 on, with an empty buffer and response. */
  function SendJSONToAPI(json: Json, transport: nat -> Attempt, maxRetries: int): (r: Run)
    ensures r.requests <= Remaining(maxRetries, 0)
    ensures maxRetries <= 0 ==> r == Run(Ok, Session("", ""), [], 0)
  {
    Drive(json, transport, maxRetries, 0, Session("", ""))
  }

  /** Steps that each continue into the next compose into one. */
  lemma {:induction false} ContinuesChain(runs: nat -> Run, k: nat, d: nat)
    requires k <= d
    requires forall j :: k <= j < d ==> Continues(runs(j), runs(j + 1), 1)
    ensures Continues(runs(k), runs(d), d - k)
    decreases d - k
  {
    if k < d {
      ContinuesChain(runs, k + 1, d);
      ContinuesTrans(runs(k), runs(k + 1), runs(d), 1, d - k - 1);
    } else {
      ContinuesRefl(runs(k));
    }
  }

  lemma RetriedContinue(json: Json, transport: nat -> Attempt, maxRetries: int, k: nat, d: nat, st: Session)
    requires d <= maxRetries
    requires forall j :: k <= j < d ==> Retried(transport(j), j, maxRetries)
    ensures forall j :: k <= j < d ==>
      Continues(Drive(json, transport, maxRetries, j, st), Drive(json, transport, maxRetries, j + 1, st), 1)
  {
    forall j | k <= j < d
      ensures Continues(Drive(json, transport, maxRetries, j, st), Drive(json, transport, maxRetries, j + 1, st), 1)
    {
      ContinuesRetried(json, transport, maxRetries, j, st);
    }
  }

  /** Attempts that are followed by another one leave no trace on the stream
      state, and the call ends as the first attempt that is not retried
      decides. */
  lemma SkipRetried(json: Json, transport: nat -> Attempt, maxRetries: int, k: nat, d: nat, st: Session)
    requires k <= d <= maxRetries
    requires forall j :: k <= j < d ==> Retried(transport(j), j, maxRetries)
    ensures Continues(Drive(json, transport, maxRetries, k, st), Drive(json, transport, maxRetries, d, st), d - k)
  {
    RetriedContinue(json, transport, maxRetries, k, d, st);
    ContinuesChain((j: nat) => Drive(json, transport, maxRetries, j, st), k, d);
  }

  /** When the first attempt that is not retried gets 200, the call
      succeeds, sends one request per attempt so far, and leaves exactly the
      stream state and side effects of reading that attempt's body from an
      empty buffer and response. */
  lemma FirstSuccessStreams(json: Json, transport: nat -> Attempt, maxRetries: int, d: nat, body: Body)
    requires d < maxRetries
    requires forall j :: 0 <= j < d ==> Retried(transport(j), j, maxRetries)
    requires transport(d) == Responded(200, body)
    ensures var r := SendJSONToAPI(json, transport, maxRetries);
      var b := ReadBody(json, Session("", ""), body);
      && r.outcome == Ok && r.session == b.session && r.requests == d + 1
      && EndsWith(r.events, b.events)
  {
    SkipRetried(json, transport, maxRetries, 0, d, Session("", ""));
  }

  /** When the first attempt that is not retried gets a status that is
      fatal at that attempt, the call fails with the classifier's error and
      its side effects are the last ones: no body is read. */
  lemma FirstFatalStops(json: Json, transport: nat -> Attempt, maxRetries: int, d: nat)
    requires d < maxRetries
    requires forall j :: 0 <= j < d ==> Retried(transport(j), j, maxRetries)
    requires transport(d).Responded?
    requires Classify(transport(d).status, "", d, maxRetries).verdict.Fatal?
    ensures var r := SendJSONToAPI(json, transport, maxRetries);
      && r.outcome == Failed(Classify(transport(d).status, "", d, maxRetries).verdict.err)
      && r.session == Session("", "") && r.requests == d + 1
      && EndsWith(r.events, Classify(transport(d).status, "", d, maxRetries).events)
  {
    SkipRetried(json, transport, maxRetries, 0, d, Session("", ""));
  }

  /** A request that cannot be built ends the call at once with that error,
      after the retried attempts before it. */
  lemma BadRequestStops(json: Json, transport: nat -> Attempt, maxRetries: int, d: nat)
    requires d < maxRetries
    requires forall j :: 0 <= j < d ==> Retried(transport(j), j, maxRetries)
    requires transport(d).BadRequest?
    ensures var r := SendJSONToAPI(json, transport, maxRetries);
      && r.outcome == Failed(transport(d).reason) && r.session == Session("", "") && r.requests == d
  {
    SkipRetried(json, transport, maxRetries, 0, d, Session("", ""));
  }

  /** Every attempt from `k` on gets a transient status. */
  predicate AllTransient(transport: nat -> Attempt, k: nat, maxRetries: int) {
    forall j :: k <= j < maxRetries ==> transport(j).Responded? && IsTransient(transport(j).status)
  }

  /** When every attempt gets a transient status, the budget is spent: every
      attempt sends a request and saves one system message, nothing
      sleeps, and the last attempt's status decides the error. */
  lemma {:induction false} TransientExhausts(json: Json, transport: nat -> Attempt, maxRetries: int, k: nat, st: Session)
    requires k < maxRetries && AllTransient(transport, k, maxRetries)
    ensures var r := Drive(json, transport, maxRetries, k, st);
      && r.outcome == Failed(ExhaustedError(transport(maxRetries - 1).status, maxRetries))
      && r.session == st && r.requests == maxRetries - k
      && SaveCount(r.events) == maxRetries - k && Sleeps(r.events) == []
    decreases maxRetries - k
  {
    var a := transport(k);
    var c := Classify(a.status, "", k, maxRetries);
    TransientSchedule(a.status, k, maxRetries);
    assert Sleeps(c.events) == [] by {
      TransientEvents(a.status, k, maxRetries);
    }
    if k < maxRetries - 1 {
      TransientExhausts(json, transport, maxRetries, k + 1, st);
      DriveRetried(json, transport, maxRetries, k, st);
      var rest := Drive(json, transport, maxRetries, k + 1, st);
      SaveCountAppend(c.events, rest.events);
      SleepsAppend(c.events, rest.events);
    }
  }

  /** The side effects of a transient status: one save, perhaps a log line,
      and no pause. */
  lemma TransientEvents(status: int, k: nat, maxRetries: int)
    requires IsTransient(status)
    ensures Sleeps(Classify(status, "", k, maxRetries).events) == []
  {
    var evs := Classify(status, "", k, maxRetries).events;
    if BudgetLeft(k, maxRetries) {
      assert evs[1..][1..] == [];
    } else {
      assert evs[1..] == [];
    }
  }

  /** The back-off pauses of attempts `k` up to `maxRetries - 1`. */
  function Backoff(k: nat, maxRetries: int): (r: seq<nat>)
    ensures |r| == Remaining(maxRetries, k)
    ensures forall i :: 0 <= i < |r| ==> r[i] == Pow2(k + i)
    decreases Remaining(maxRetries, k)
  {
    if k >= maxRetries then [] else [Pow2(k)] + Backoff(k + 1, maxRetries)
  }

  /** When every send fails, the loop runs out without an error: each
      attempt sleeps twice as long as the one before, starting from 2^k. */
  lemma {:induction false} TransportFailuresBackOff(json: Json, transport: nat -> Attempt, maxRetries: int, k: nat, st: Session)
    requires forall j :: k <= j < maxRetries ==> transport(j).TransportFailed?
    ensures var r := Drive(json, transport, maxRetries, k, st);
      && r.outcome == Ok && r.session == st && r.requests == Remaining(maxRetries, k)
      && Sleeps(r.events) == Backoff(k, maxRetries) && SaveCount(r.events) == 0
      && Pushes(r.events) == []
    decreases Remaining(maxRetries, k)
  {
    if k < maxRetries {
      TransportFailuresBackOff(json, transport, maxRetries, k + 1, st);
      DriveRetried(json, transport, maxRetries, k, st);
      var rest := Drive(json, transport, maxRetries, k + 1, st);
      var mine := Attempted(json, transport(k), k, maxRetries, st).events;
      SleepsAppend(mine, rest.events);
      SaveCountAppend(mine, rest.events);
      PushesAppend(mine, rest.events);
    }
  }

  /** Three failed sends in a budget of three: pauses of 1, 2 and 4 seconds,
      and no error. */
  lemma BackoffExample(json: Json, transport: nat -> Attempt)
    requires forall j :: 0 <= j < 3 ==> transport(j).TransportFailed?
    ensures SendJSONToAPI(json, transport, 3).outcome == Ok
    ensures Sleeps(SendJSONToAPI(json, transport, 3).events) == [1, 2, 4]
  {
    TransportFailuresBackOff(json, transport, 3, 0, Session("", ""));
    var b := Backoff(0, 3);
    assert b[0] == 1 && b[1] == 2 && b[2] == 4;
  }
}

=== FILE: events.dfy ===
/** The decoded shape of one streamed frame, the JSON collaborator that
    produces it, and the trace of side effects the client performs
    (conversation-log saves, error-log lines, display, command push, sleeps). */
module Events {

  /** Role under which a message is saved to the conversation log. */
  datatype Role = User | Assistant | System | Tool

  /** One tool invocation of a delta: id, function name and its two arguments. */
  datatype ToolCall = ToolCall(id: string, name: string, command: string, reason: string)

  /** `choices[k].delta` of a streamed frame. A field absent from the JSON
      decodes to its zero value (empty content, no tool calls), as in Go. */
  datatype Choice = Choice(content: string, toolCalls: seq<ToolCall>)

  /** The outcome of unmarshalling one assembled frame. */
  datatype Decoded = Malformed | Frame(choices: seq<Choice>)

  /** The JSON library, which this model does not look inside: `decode` plays
      `json.Unmarshal` into the response structure and `encode` plays
      `json.Marshal` of a tool-call list. */
  datatype Json = Json(decode: string -> Decoded, encode: seq<ToolCall> -> string)

  /** One observable side effect. `Slept(s)` is a pause of `s` seconds. */
  datatype Event =
    | Saved(role: Role, content: string)
    | Logged(message: string)
    | Displayed(text: string)
    | Pushed(command: string)
    | Slept(seconds: nat)

  /** The contents saved under `role`, in order. */
  function SavedAs(events: seq<Event>, role: Role): (r: seq<string>)
    ensures |r| <= |events|
  {
    if events == [] then []
    else
      var rest := SavedAs(events[1..], role);
      if events[0].Saved? && events[0].role == role then [events[0].content] + rest else rest
  }

  /** How many conversation-log saves the trace holds, whatever the role. */
  function SaveCount(events: seq<Event>): (n: nat)
    ensures n <= |events|
  {
    if events == [] then 0
    else (if events[0].Saved? then 1 else 0) + SaveCount(events[1..])
  }

  /** The pauses of the trace, in seconds, in order. */
  function Sleeps(events: seq<Event>): (r: seq<nat>)
    ensures |r| <= |events|
  {
    if events == [] then []
    else if events[0].Slept? then [events[0].seconds] + Sleeps(events[1..])
    else Sleeps(events[1..])
  }

  /** The commands pushed for execution, in order. */
  function Pushes(events: seq<Event>): (r: seq<string>)
    ensures |r| <= |events|
  {
    if events == [] then []
    else if events[0].Pushed? then [events[0].command] + Pushes(events[1..])
    else Pushes(events[1..])
  }

  lemma {:induction false} SavedAsAppend(a: seq<Event>, b: seq<Event>, role: Role)
    ensures SavedAs(a + b, role) == SavedAs(a, role) + SavedAs(b, role)
    decreases |a|
  {
    if a == [] {
      assert a + b == b;
    } else {
      assert (a + b)[1..] == a[1..] + b;
      SavedAsAppend(a[1..], b, role);
    }
  }

  lemma {:induction false} SaveCountAppend(a: seq<Event>, b: seq<Event>)
    ensures SaveCount(a + b) == SaveCount(a) + SaveCount(b)
    decreases |a|
  {
    if a == [] {
      assert a + b == b;
    } else {
      assert (a + b)[1..] == a[1..] + b;
      SaveCountAppend(a[1..], b);
    }
  }

  lemma {:induction false} SleepsAppend(a: seq<Event>, b: seq<Event>)
    ensures Sleeps(a + b) == Sleeps(a) + Sleeps(b)
    decreases |a|
  {
    if a == [] {
      assert a + b == b;
    } else {
      assert (a + b)[1..] == a[1..] + b;
      SleepsAppend(a[1..], b);
    }
  }

  lemma {:induction false} PushesAppend(a: seq<Event>, b: seq<Event>)
    ensures Pushes(a + b) == Pushes(a) + Pushes(b)
    decreases |a|
  {
    if a == [] {
      assert a + b == b;
    } else {
      assert (a + b)[1..] == a[1..] + b;
      PushesAppend(a[1..], b);
    }
  }
}

=== FILE: framer.dfy ===
/** The streaming part of `sendJSONToAPI`: each line of the response body
    is trimmed and classified, `data: ` payloads are collected in a single
    buffer, a line ending in `}` hands the buffer to the JSON decoder, and
    each decoded delta is logged, shown, pushed or accumulated. */
module Framer {
  import opened Text
  import opened Events
  import opened Directives

  /** The provider's keep-alive comment. */
  const KeepAlive: string := ": OPENROUTER PROCESSING"
  /** An in-band status line: ends the whole call without an error. */
  const ControlPrefix: string := "CODE: "
  const DoneMarker: string := "[DONE]"
  const DataPrefix: string := "data: "
  /** The last character of a line that completes a frame. */
  const FrameEnd: string := "}"

  /** A body line as the loop tells it apart, after trimming. `closes`
      records whether the trimmed line ends in `}`, which hands the buffer
      to the decoder. */
  datatype Line =
    | Ignored                               // blank, or the keep-alive comment
    | Control                               // `CODE: ...`
    | Done                                  // `[DONE]`
    | Data(payload: string, closes: bool)   // `data: <payload>`
    | Other(closes: bool)                   // anything else

  /** The state the stream loop keeps: the partial frame and the text of
      every content delta so far. */
  datatype Session = Session(buffer: string, fullResponse: string)

  /** After one line (or many): the new state, the side effects in order,
      and whether a control line ended the call. */
  datatype StepResult = StepResult(session: Session, events: seq<Event>, halted: bool)

  /** The body as the reader delivers it: its newline-terminated lines,
      then either end of file or a read error. */
  datatype BodyEnd = Eof | ReadFailed(reason: string)
  datatype Body = Body(lines: seq<string>, end: BodyEnd)

  /** The line forms the loop tests for are told apart by their first or
      last characters. */
  lemma LineFormsDisjoint(line: string)
    ensures HasPrefix(line, DataPrefix) ==>
      line != "" && line != KeepAlive && line != DoneMarker && !HasPrefix(line, ControlPrefix)
    ensures HasPrefix(line, ControlPrefix) ==> line != "" && line != KeepAlive && line != DoneMarker
    ensures HasSuffix(line, FrameEnd) ==> line != "" && line != KeepAlive && line != DoneMarker
  {
    if HasPrefix(line, DataPrefix) {
      assert line[0] == DataPrefix[0];
    }
    if HasPrefix(line, ControlPrefix) {
      assert line[0] == ControlPrefix[0];
    }
    if HasSuffix(line, FrameEnd) {
      assert line[|line| - 1] == '}';
    }
  }

  /** Classifies a trimmed line, testing the forms in the order the loop
      in `sendJSONToAPI` does. */
  function Recognize(line: string): (l: Line)
    ensures l.Ignored? <==> line == "" || line == KeepAlive
    ensures l.Control? <==> HasPrefix(line, ControlPrefix)
    ensures l.Done? <==> line == DoneMarker
    ensures l.Data? <==> HasPrefix(line, DataPrefix)
    ensures l.Data? ==> line == DataPrefix + l.payload
    ensures l.Data? || l.Other? ==> (l.closes <==> HasSuffix(line, FrameEnd))
  {
    LineFormsDisjoint(line);
    if line == "" || line == KeepAlive then Ignored
    else if HasPrefix(line, ControlPrefix) then Control
    else if line == DoneMarker then Done
    else if HasPrefix(line, DataPrefix) then
      assert line == DataPrefix + line[|DataPrefix|..];
      Data(line[|DataPrefix|..], HasSuffix(line, FrameEnd))
    else Other(HasSuffix(line, FrameEnd))
  }

  /** A raw body line is trimmed before it is classified. */
  function ClassifyLine(raw: string): Line {
    Recognize(TrimSpace(raw))
  }

  /** Lines are trimmed before anything else looks at them, so white space
      around a line never changes how it is handled. */
  lemma ClassifyIgnoresSurroundingSpace(p: string, raw: string, q: string)
    requires AllSpace(p) && AllSpace(q)
    ensures ClassifyLine(p + raw + q) == ClassifyLine(raw)
  {
    TrimSpaceAbsorbs(p, raw, q);
  }

  /** `data: ` followed by a payload that does not end in white space is a
      data line carrying exactly that payload, and it closes a frame when
      the payload ends in `}`. */
  lemma ClassifyDataLine(payload: string)
    requires payload != [] && !IsSpace(payload[|payload| - 1])
    ensures ClassifyLine(DataPrefix + payload) == Data(payload, HasSuffix(payload, FrameEnd))
  {
    var line := DataPrefix + payload;
    assert line[|line| - 1] == payload[|payload| - 1];
    assert line[|line| - 1..] == payload[|payload| - 1..];
    assert [] + line + [] == line;
    TrimSpacePadded([], line, []);
    assert line[..|DataPrefix|] == DataPrefix;
  }

  /** The text a decoded frame adds to the full response: the first
      choice's content, unless that choice carries tool calls. */
  function ContentOf(d: Decoded): string {
    if d.Frame? && |d.choices| > 0 && |d.choices[0].toolCalls| == 0 then d.choices[0].content else ""
  }

  /** Whether a decoded frame marks the end of the assistant's turn: a first
      choice with neither content nor tool calls. */
  predicate EndsTurn(d: Decoded) {
    d.Frame? && |d.choices| > 0 && |d.choices[0].toolCalls| == 0 && d.choices[0].content == ""
  }

  /** Whether a decoded frame carries tool calls in its first choice. */
  predicate HasToolCalls(d: Decoded) {
    d.Frame? && |d.choices| > 0 && |d.choices[0].toolCalls| > 0
  }

  /** Handles one complete frame: decode it, then log, save, show, push or
      accumulate as its kind demands. The buffer is cleared in every case. */
  function Deliver(json: Json, frame: string, full: string): (r: StepResult)
    ensures r.session.buffer == "" && !r.halted
    ensures r.session.fullResponse == full + ContentOf(json.decode(frame))
    ensures json.decode(frame).Frame? && |json.decode(frame).choices| == 0 ==> r.events == []
    ensures json.decode(frame).Malformed? ==>
      r.events == [Saved(System, "Error: Invalid JSON response"), Logged("Invalid JSON received: " + frame)]
    ensures HasToolCalls(json.decode(frame)) ==>
      r.events == [Saved(Tool, json.encode(json.decode(frame).choices[0].toolCalls))]
    ensures ContentOf(json.decode(frame)) != "" ==> r.events == Show(Extract(ContentOf(json.decode(frame))))
    ensures EndsTurn(json.decode(frame)) ==> r.events == [Displayed(""), Saved(Assistant, full)]
    ensures SavedAs(r.events, Assistant) == (if EndsTurn(json.decode(frame)) then [full] else [])
  {
    match json.decode(frame)
    case Malformed =>
      StepResult(Session("", full),
        [Saved(System, "Error: Invalid JSON response"), Logged("Invalid JSON received: " + frame)], false)
    case Frame(choices) =>
      if |choices| == 0 then
        StepResult(Session("", full), [], false)
      else if |choices[0].toolCalls| > 0 then
        StepResult(Session("", full), [Saved(Tool, json.encode(choices[0].toolCalls))], false)
      else
        var content := choices[0].content;
        if content != "" then
          var d := Extract(content);
          ShowSavesNothing(d);
          StepResult(Session("", full + content), Show(d), false)
        else
          StepResult(Session("", full), [Displayed(""), Saved(Assistant, full)], false)
  }

  /** Showing a delta never saves to the conversation log. */
  lemma ShowSavesNothing(d: Directive)
    ensures SavedAs(Show(d), Assistant) == []
  {
  }

  /** The frame a closing line hands to the decoder: its own payload for a
      data line, and otherwise whatever the buffer already held. */
  function Assembled(buffer: string, line: Line): string {
    if line.Data? then line.payload else buffer
  }

  /** Whether the line hands a frame to the decoder. */
  predicate Closes(line: Line) {
    (line.Data? || line.Other?) && line.closes
  }

  /** The log line for a partial frame that a new data line or `[DONE]`
      throws away. */
  function Discarded(buffer: string): seq<Event> {
    if buffer != "" then [Logged("ERROR, Buffer is " + buffer)] else []
  }

  /** One body line, as the loop body handles it. */
  function Step(json: Json, st: Session, line: Line): (r: StepResult)
    ensures r.halted <==> line.Control?
    ensures line.Control? || line.Ignored? ==> r.session == st && r.events == []
    ensures line.Done? ==> r.session == st.(buffer := "") && r.events == Discarded(st.buffer)
    ensures line.Data? && !line.closes ==>
      r.session == Session(line.payload, st.fullResponse) && r.events == Discarded(st.buffer)
    ensures line.Other? && !line.closes ==> r.session == st && r.events == []
    ensures line.Data? && line.closes ==>
      r.events == Discarded(st.buffer) + Deliver(json, line.payload, st.fullResponse).events
    ensures line.Other? && line.closes ==> r == Deliver(json, st.buffer, st.fullResponse)
    ensures Closes(line) ==> r.session.buffer == ""
    ensures r.session.fullResponse == st.fullResponse
      + (if Closes(line) then ContentOf(json.decode(Assembled(st.buffer, line))) else "")
    ensures SavedAs(r.events, Assistant) ==
      (if Closes(line) && EndsTurn(json.decode(Assembled(st.buffer, line))) then [st.fullResponse] else [])
  {
    match line
    case Ignored => StepResult(st, [], false)
    case Control => StepResult(st, [], true)
    case Done => StepResult(st.(buffer := ""), Discarded(st.buffer), false)
    case Data(payload, closes) =>
      // The stale partial frame is discarded (and logged) first, so the
      // buffer then holds exactly this line's payload.
      if closes then
        var d := Deliver(json, payload, st.fullResponse);
        SavedAsAppend(Discarded(st.buffer), d.events, Assistant);
        StepResult(d.session, Discarded(st.buffer) + d.events, false)
      else
        StepResult(Session(payload, st.fullResponse), Discarded(st.buffer), false)
    case Other(closes) =>
      if closes then Deliver(json, st.buffer, st.fullResponse) else StepResult(st, [], false)
  }

  /** The lines of a body in order, stopping at the first control line. */
  function Stream(json: Json, st: Session, lines: seq<Line>): (r: StepResult)
    ensures st.fullResponse <= r.session.fullResponse
    decreases |lines|
  {
    if lines == [] then
      StepResult(st, [], false)
    else
      var s := Step(json, st, lines[0]);
      if s.halted then s
      else
        var rest := Stream(json, s.session, lines[1..]);
        StepResult(rest.session, s.events + rest.events, rest.halted)
  }

  function ClassifyLines(raws: seq<string>): (ls: seq<Line>)
    ensures |ls| == |raws| && forall i :: 0 <= i < |raws| ==> ls[i] == ClassifyLine(raws[i])
  {
    seq(|raws|, i requires 0 <= i < |raws| => ClassifyLine(raws[i]))
  }

  /** The streaming loop over a whole body: a read error other than end of
      file is logged and ends the loop like end of file does. */
  function ReadBody(json: Json, st: Session, body: Body): (r: StepResult)
    ensures var s := Stream(json, st, ClassifyLines(body.lines));
      && r.session == s.session && r.halted == s.halted
      && |s.events| <= |r.events| && r.events[..|s.events|] == s.events
    ensures !r.halted && body.end.ReadFailed? ==>
      r.events == Stream(json, st, ClassifyLines(body.lines)).events
        + [Logged("Error reading response: " + body.end.reason)]
    ensures r.halted || body.end.Eof? ==> r == Stream(json, st, ClassifyLines(body.lines))
  {
    var s := Stream(json, st, ClassifyLines(body.lines));
    if !s.halted && body.end.ReadFailed? then
      StepResult(s.session, s.events + [Logged("Error reading response: " + body.end.reason)], false)
    else
      s
  }

  /** The call ends early exactly when some line is an in-band control line. */
  lemma {:induction false} HaltsIffControlLine(json: Json, st: Session, lines: seq<Line>)
    ensures Stream(json, st, lines).halted <==> exists k :: 0 <= k < |lines| && lines[k].Control?
    decreases |lines|
  {
    if lines != [] && !lines[0].Control? {
      var s := Step(json, st, lines[0]);
      HaltsIffControlLine(json, s.session, lines[1..]);
      if exists k :: 0 <= k < |lines| && lines[k].Control? {
        var k :| 0 <= k < |lines| && lines[k].Control?;
        assert lines[1..][k - 1].Control?;
      }
      if exists k :: 0 <= k < |lines[1..]| && lines[1..][k].Control? {
        var k :| 0 <= k < |lines[1..]| && lines[1..][k].Control?;
        assert lines[k + 1].Control?;
      }
    }
  }

  /** The payload of the last data line, or `buffer` if there is none. */
  function LastPayload(buffer: string, lines: seq<Line>): string
    decreases |lines|
  {
    if lines == [] then buffer
    else LastPayload(if lines[0].Data? then lines[0].payload else buffer, lines[1..])
  }

  lemma {:induction false} LastPayloadSeed(b: string, c: string, lines: seq<Line>)
    ensures || (LastPayload(b, lines) == b && LastPayload(c, lines) == c)
            || LastPayload(b, lines) == LastPayload(c, lines)
    decreases |lines|
  {
    if lines != [] && !lines[0].Data? {
      LastPayloadSeed(b, c, lines[1..]);
    }
  }

  /** The buffer never holds two payloads run together: once the body has
      been read it is empty or holds exactly the payload of the last data
      line (the starting buffer if there was no data line). */
  lemma {:induction false} BufferIsLastPayload(json: Json, st: Session, lines: seq<Line>)
    ensures var r := Stream(json, st, lines);
      !r.halted ==> r.session.buffer == "" || r.session.buffer == LastPayload(st.buffer, lines)
    decreases |lines|
  {
    if lines != [] {
      var s := Step(json, st, lines[0]);
      if !s.halted {
        var seed := if lines[0].Data? then lines[0].payload else st.buffer;
        assert s.session.buffer == "" || s.session.buffer == seed;
        BufferIsLastPayload(json, s.session, lines[1..]);
        LastPayloadSeed(s.session.buffer, seed, lines[1..]);
      }
    }
  }

  /** Every string of `ms` extends `lo` and is a prefix of `hi`. */
  predicate Between(ms: seq<string>, lo: string, hi: string) {
    forall i :: 0 <= i < |ms| ==> lo <= ms[i] && ms[i] <= hi
  }

  /** Every assistant message saved while streaming is a snapshot of the
      accumulated response: it extends the response the stream started
      with and is a prefix of the final one. */
  lemma {:induction false} SavedResponsesArePrefixes(json: Json, st: Session, lines: seq<Line>)
    ensures var r := Stream(json, st, lines);
      Between(SavedAs(r.events, Assistant), st.fullResponse, r.session.fullResponse)
    decreases |lines|
  {
    if lines != [] {
      var s := Step(json, st, lines[0]);
      if !s.halted {
        var rest := Stream(json, s.session, lines[1..]);
        assert Stream(json, st, lines) == StepResult(rest.session, s.events + rest.events, rest.halted);
        SavedResponsesArePrefixes(json, s.session, lines[1..]);
        SavedAsAppend(s.events, rest.events, Assistant);
        PrefixTransitive(st.fullResponse, s.session.fullResponse, rest.session.fullResponse);
        var mine := SavedAs(s.events, Assistant);
        var later := SavedAs(rest.events, Assistant);
        assert Between(mine, st.fullResponse, rest.session.fullResponse);
        forall i | 0 <= i < |later|
          ensures st.fullResponse <= later[i]
        {
          PrefixTransitive(st.fullResponse, s.session.fullResponse, later[i]);
        }
        assert Between(mine + later, st.fullResponse, rest.session.fullResponse);
      }
    }
  }

  lemma PrefixTransitive(a: string, b: string, c: string)
    requires a <= b && b <= c
    ensures a <= c
  {
    assert c[..|a|] == b[..|a|];
  }

  /** `[DONE]` empties the buffer but does not stop the reading loop. */
  lemma DoneDoesNotStop(json: Json, st: Session, rest: seq<Line>)
    ensures Stream(json, st, [Done] + rest) ==
      var tail := Stream(json, st.(buffer := ""), rest);
      StepResult(tail.session, Discarded(st.buffer) + tail.events, tail.halted)
  {
    assert ([Done] + rest)[1..] == rest;
  }

  /** `[DONE]` on its own is classified as the end-of-stream marker. */
  lemma ClassifyDoneLine()
    ensures ClassifyLine(DoneMarker) == Done
  {
    assert [] + DoneMarker + [] == DoneMarker;
    TrimSpacePadded([], DoneMarker, []);
  }

  /** The stream of three lines
        data: {"choices":[{"delta":{"content":"Hi"}}]}
        data: {"choices":[{"delta":{"content":""}}]}
        [DONE]
      (two closing data lines, by `ClassifyDataLine`, and the end marker)
      shows "Hi", then signals the end of the turn and saves "Hi" as the
      assistant message exactly once. */
  lemma EndToEndExample(json: Json, hi: string, f1: string, f2: string)
    requires hi == "Hi"
    requires json.decode(f1) == Frame([Choice(hi, [])])
    requires json.decode(f2) == Frame([Choice("", [])])
    ensures Stream(json, Session("", ""), [Data(f1, true), Data(f2, true), Done])
         == StepResult(Session("", hi), [Displayed(hi), Displayed(""), Saved(Assistant, hi)], false)
  {
    var s0 := Session("", "");
    var s1 := Session("", hi);
    NoMarkerWithoutBracket(hi);
    assert Extract(hi) == Plain(hi);
    assert Step(json, s0, Data(f1, true)) == StepResult(s1, [Displayed(hi)], false);
    assert Step(json, s1, Data(f2, true)) == StepResult(s1, [Displayed(""), Saved(Assistant, hi)], false);
    assert Step(json, s1, Done) == StepResult(s1, [], false);
    StreamOne(json, s1, Done);
    StreamCons(json, s1, Data(f2, true), [Done]);
    StreamCons(json, s0, Data(f1, true), [Data(f2, true), Done]);
  }

  /** One line on its own is one step. */
  lemma StreamOne(json: Json, st: Session, line: Line)
    ensures Stream(json, st, [line]) == Step(json, st, line)
  {
    assert [line][1..] == [];
  }

  /** A line in front of the rest: its step, then (unless it was a control
      line) the rest from the state it left. */
  lemma StreamCons(json: Json, st: Session, line: Line, rest: seq<Line>)
    ensures Stream(json, st, [line] + rest) ==
      var s := Step(json, st, line);
      if s.halted then s
      else
        var t := Stream(json, s.session, rest);
        StepResult(t.session, s.events + t.events, t.halted)
  {
    assert ([line] + rest)[0] == line;
    assert ([line] + rest)[1..] == rest;
  }

  /** A line that ends in `}` but has neither the `data: ` nor the `CODE: `
      prefix (the tail of a frame split over two physical lines, say) is
      a closing line of the "other" kind. */
  lemma ClassifyBareClosingLine(b: string)
    requires Tight(b) && HasSuffix(b, FrameEnd) && !HasPrefix(b, DataPrefix) && !HasPrefix(b, ControlPrefix)
    ensures ClassifyLine(b) == Other(true)
  {
    assert [] + b + [] == b;
    TrimSpacePadded([], b, []);
    LineFormsDisjoint(b);
  }

  /** A frame split over two physical lines is not joined: only a line with
      the `data: ` prefix adds to the buffer, so the closing line hands the
      decoder the first line's payload alone. */
  lemma SplitFrameNotJoined(json: Json, full: string, a: string)
    ensures Stream(json, Session("", full), [Data(a, false), Other(true)]) == Deliver(json, a, full)
  {
    var s1 := Session(a, full);
    assert Step(json, Session("", full), Data(a, false)) == StepResult(s1, [], false);
    StreamOne(json, s1, Other(true));
    StreamCons(json, Session("", full), Data(a, false), [Other(true)]);
  }

  /** Two data lines in a row, neither completing a frame: the first payload
      is discarded with one log line and the buffer holds only the second. */
  lemma StaleFrameDiscarded(json: Json, full: string, a: string, b: string)
    requires a != []
    ensures Stream(json, Session("", full), [Data(a, false), Data(b, false)])
         == StepResult(Session(b, full), [Logged("ERROR, Buffer is " + a)], false)
  {
    var s1 := Session(a, full);
    assert Step(json, Session("", full), Data(a, false)) == StepResult(s1, [], false);
    StreamOne(json, s1, Data(b, false));
    StreamCons(json, Session("", full), Data(a, false), [Data(b, false)]);
  }
}

=== FILE: text.dfy ===
/** The handful of Go string primitives the client relies on: white-space
    trimming, prefix/suffix tests, first-occurrence search and replacement,
    and decimal formatting of integers. Strings are sequences of Unicode
    scalar values; invalid UTF-8 is not represented. */
module Text {

  /** Go's `unicode.IsSpace`: the Latin-1 spaces plus the other code points
      carrying the Unicode White_Space property. */
  predicate IsSpace(c: char) {
    var n := c as int;
    || (9 <= n <= 13) || n == 32 || n == 0x85 || n == 0xA0
    || n == 0x1680 || (0x2000 <= n <= 0x200A)
    || n == 0x2028 || n == 0x2029 || n == 0x202F || n == 0x205F || n == 0x3000
  }

  predicate AllSpace(s: string) {
    forall i :: 0 <= i < |s| ==> IsSpace(s[i])
  }

  /** Neither end of `s` is white space (vacuously true of the empty string). */
  predicate Tight(s: string) {
    s == [] || (!IsSpace(s[0]) && !IsSpace(s[|s| - 1]))
  }

  /** Drops the leading white space of `s`. */
  function TrimLeft(s: string): (r: string)
    ensures |r| <= |s| && r == s[|s| - |r|..]
    ensures AllSpace(s[..|s| - |r|])
    ensures r == [] || !IsSpace(r[0])
  {
    if |s| > 0 && IsSpace(s[0]) then TrimLeft(s[1..]) else s
  }

  /** Drops the trailing white space of `s`. */
  function TrimRight(s: string): (r: string)
    ensures |r| <= |s| && r == s[..|r|]
    ensures AllSpace(s[|r|..])
    ensures r == [] || !IsSpace(r[|r| - 1])
  {
    if |s| > 0 && IsSpace(s[|s| - 1]) then TrimRight(s[..|s| - 1]) else s
  }

  /** Go's `strings.TrimSpace`. */
  function TrimSpace(s: string): (r: string)
    ensures |r| <= |s|
    ensures Tight(r)
    ensures r == [] <==> AllSpace(s)
  {
    var l := TrimLeft(s);
    var r := TrimRight(l);
    assert l[0..] == l;
    assert l == [] ==> s[..|s| - |l|] == s;
    r
  }

  lemma {:induction false} TrimLeftPadded(p: string, t: string)
    requires AllSpace(p)
    requires t == [] || !IsSpace(t[0])
    ensures TrimLeft(p + t) == t
    decreases |p|
  {
    if p == [] {
      assert p + t == t;
    } else {
      assert (p + t)[1..] == p[1..] + t;
      TrimLeftPadded(p[1..], t);
    }
  }

  lemma {:induction false} TrimRightPadded(t: string, q: string)
    requires AllSpace(q)
    requires t == [] || !IsSpace(t[|t| - 1])
    ensures TrimRight(t + q) == t
    decreases |q|
  {
    if q == [] {
      assert t + q == t;
    } else {
      assert (t + q)[..|t + q| - 1] == t + q[..|q| - 1];
      TrimRightPadded(t, q[..|q| - 1]);
    }
  }

  /** TrimSpace removes exactly the white space around a tight core: any
      string of the form spaces + t + spaces trims to t. */
  lemma TrimSpacePadded(p: string, t: string, q: string)
    requires AllSpace(p) && AllSpace(q) && Tight(t)
    ensures TrimSpace(p + t + q) == t
  {
    if t == [] {
      assert p + t + q == p + q;
      AllSpaceConcat(p, q);
    } else {
      assert p + t + q == p + (t + q);
      TrimLeftPadded(p, t + q);
      TrimRightPadded(t, q);
    }
  }

  lemma AllSpaceConcat(a: string, b: string)
    requires AllSpace(a) && AllSpace(b)
    ensures AllSpace(a + b)
  {
    forall i | 0 <= i < |a + b| ensures IsSpace((a + b)[i]) {
      if i >= |a| { assert (a + b)[i] == b[i - |a|]; }
    }
  }

  lemma SplitAround(s: string, l: string, t: string)
    requires |l| <= |s| && l == s[|s| - |l|..] && |t| <= |l| && t == l[..|t|]
    ensures s == s[..|s| - |l|] + t + l[|t|..]
  {
    assert s == s[..|s| - |l|] + s[|s| - |l|..];
    assert l == l[..|t|] + l[|t|..];
  }

  lemma Regroup(p: string, s: string, q: string, lead: string, t: string, trail: string)
    requires s == lead + t + trail
    ensures p + s + q == (p + lead) + t + (trail + q)
  {
  }

  /** Extra white space around a string does not change its trimmed form. */
  lemma TrimSpaceAbsorbs(p: string, s: string, q: string)
    requires AllSpace(p) && AllSpace(q)
    ensures TrimSpace(p + s + q) == TrimSpace(s)
  {
    var l := TrimLeft(s);
    var t := TrimRight(l);
    assert TrimSpace(s) == t;
    var lead := s[..|s| - |l|];
    var trail := l[|t|..];
    SplitAround(s, l, t);
    assert Tight(t) by {
      if t != [] { assert t[0] == l[0]; }
    }
    AllSpaceConcat(p, lead);
    AllSpaceConcat(trail, q);
    Regroup(p, s, q, lead, t, trail);
    TrimSpacePadded(p + lead, t, trail + q);
  }

  /** Trimming twice is trimming once. */
  lemma TrimSpaceIdempotent(s: string)
    ensures TrimSpace(TrimSpace(s)) == TrimSpace(s)
  {
    var t := TrimSpace(s);
    assert TrimLeft(t) == t;
    assert TrimRight(t) == t;
  }

  /** Go's `strings.HasPrefix`. */
  predicate HasPrefix(s: string, prefix: string) {
    |prefix| <= |s| && s[..|prefix|] == prefix
  }

  /** Go's `strings.HasSuffix`. */
  predicate HasSuffix(s: string, suffix: string) {
    |suffix| <= |s| && s[|s| - |suffix|..] == suffix
  }

  /** `pat` occurs in `s` starting at index `i`. */
  predicate OccursAt(s: string, pat: string, i: int) {
    0 <= i && i + |pat| <= |s| && s[i..i + |pat|] == pat
  }

  /** The first index at or after `from` where `pat` occurs in `s`, or -1. */
  function IndexFrom(s: string, pat: string, from: nat): (r: int)
    requires from <= |s|
    ensures r == -1 || (from <= r && OccursAt(s, pat, r))
    ensures forall i :: from <= i && (r == -1 || i < r) ==> !OccursAt(s, pat, i)
    decreases |s| - from
  {
    if OccursAt(s, pat, from) then from
    else if from == |s| then -1
    else IndexFrom(s, pat, from + 1)
  }

  /** Go's `strings.Index`: the first occurrence of `pat` in `s`, or -1. */
  function IndexOf(s: string, pat: string): (r: int)
    ensures r == -1 || OccursAt(s, pat, r)
    ensures forall i :: (r == -1 || i < r) ==> !OccursAt(s, pat, i)
  {
    IndexFrom(s, pat, 0)
  }

  /** Go's `strings.Contains`. */
  predicate Contains(s: string, pat: string) {
    IndexOf(s, pat) >= 0
  }

  /** Go's `strings.Replace(s, pattern, repl, 1)`: the first occurrence of `pattern`
      is replaced by `repl`; an empty `pattern` matches at the start. */
  function ReplaceFirst(s: string, pattern: string, repl: string): (r: string)
    ensures IndexOf(s, pattern) == -1 ==> r == s
    ensures IndexOf(s, pattern) >= 0 ==>
      var i := IndexOf(s, pattern);
      |r| == |s| - |pattern| + |repl| && r[..i] == s[..i] && r[i..i + |repl|] == repl
      && r[i + |repl|..] == s[i + |pattern|..]
  {
    var i := IndexOf(s, pattern);
    if i < 0 then s else s[..i] + repl + s[i + |pattern|..]
  }

  function Digit(d: nat): (c: char)
    requires d < 10
    ensures '0' <= c <= '9'
  {
    ('0' as int + d) as char
  }

  /** Decimal digits of a natural number, as `fmt`'s `%d` prints them. */
  function NatToDecimal(n: nat): (r: string)
    ensures |r| >= 1
    ensures forall i :: 0 <= i < |r| ==> '0' <= r[i] <= '9'
    ensures r[0] == '0' ==> n == 0 && r == "0"
    decreases n
  {
    if n < 10 then [Digit(n)] else NatToDecimal(n / 10) + [Digit(n % 10)]
  }

  /** The number a string of decimal digits denotes, read left to right. */
  function DecimalValue(s: string): nat
    requires forall i :: 0 <= i < |s| ==> '0' <= s[i] <= '9'
  {
    if s == [] then 0
    else DecimalValue(s[..|s| - 1]) * 10 + (s[|s| - 1] as int - '0' as int)
  }

  /** The digits `NatToDecimal` writes denote the number it was given. */
  lemma {:induction false} NatToDecimalValue(n: nat)
    ensures DecimalValue(NatToDecimal(n)) == n
    decreases n
  {
    var r := NatToDecimal(n);
    if n >= 10 {
      NatToDecimalValue(n / 10);
      assert r[..|r| - 1] == NatToDecimal(n / 10);
    }
  }

  /** `fmt`'s `%d` of an integer: a minus sign exactly for negatives. */
  function IntToDecimal(n: int): (r: string)
    ensures |r| >= 1
    ensures r[0] == '-' <==> n < 0
  {
    if n < 0 then "-" + NatToDecimal(-n) else NatToDecimal(n)
  }

  /** After the sign, `IntToDecimal` writes the digits of the magnitude. */
  lemma IntToDecimalValue(n: int)
    ensures var r := IntToDecimal(n);
      var digits := if n < 0 then r[1..] else r;
      && (forall i :: 0 <= i < |digits| ==> '0' <= digits[i] <= '9')
      && DecimalValue(digits) == (if n < 0 then -n else n)
  {
    NatToDecimalValue(if n < 0 then -n else n);
    assert n < 0 ==> ("-" + NatToDecimal(-n))[1..] == NatToDecimal(-n);
  }
}
